=== FILE: README.md ===
# Cell lineage tree: division, layout and membership

This project models the `Lineage` class of `lineage_lib.py`, from the
stem-cell model repository. The class records the division history of one
founding cell as a binary tree. It supports three operations:

- **Division** (`lineage_divide_cell`, `divide_cell`): every live cell whose id
  equals the dividing cell's id becomes a mother with two daughters born at the
  division time. The cell counter `n_cell` goes up by one per rewrite.
- **Layout** (`get_sublineage_draw_data`, `get_lineage_draw_data`): a post-order
  walk that gives each live cell the next free horizontal slot. Each mother gets
  the midpoint of her daughters' slots. The walk emits the vertical stems and
  horizontal division bars of a lineage diagram, and the diagram width.
- **Membership** (`is_in_lineage`, `is_cell_in_lineage`): whether an id occurs
  as a live cell or as a mother label.

Modules:

- `LineageTree` (`lineage_tree.dfy`): the tree datatype
  `Leaf(id, birth) | Node(mother, birth, left, right)` and the lineage record
  `Lineage(root, nCell)`. It also has counting functions, the identifier set
  `Ids`, and positions addressed by paths from the root. A node's division time
  is not stored. As in the source, it is the birth time of the first daughter
  (`DivisionTime`).
- `Encoding` (`encoding.dfy`): the stored form. This is the nested `lin_id` and
  `lin_interval` structures of the same shape, which `__init__` receives.
  `Zip` and `Unzip` convert between that form and the tree, and are inverses.
- `Division` (`division.dfy`): division insertion. It also has `Replay`, which
  applies a run of `divide_cell` calls one after another.
- `Membership` (`membership.dfy`): the membership search.
- `Layout` (`layout.dfy`): the threaded layout walk (`DrawSub`). It is proved
  equal to a reference layout computed top-down (`Slot`, `Segments`). In the
  reference, a sublineage's first live cell sits at an offset given by the
  number of live cells to its left. The properties of the diagram are proved
  on that reference.

Ids are integers (`CellId`). Times and slots are `real`. The slots are dyadic
rationals produced by halving, so `real` holds them exactly. The source's
floating-point midpoints round in very deep lineages (see "## Left out").

Behaviour of the code worth noting:

- `n_cell` goes up by one per division (lineage_lib.py:22). Starting from 1, it
  therefore counts live cells, not all cells ever created. One division of the
  founder gives 2 (`FounderDivides`).
- An unknown mother id is a silent no-op. No failure signal is returned
  (lineage_lib.py:12-22, 36).
- Every live cell carrying the mother id is divided, not only the first one.
  The search always continues into both daughters (lineage_lib.py:25-33).
- Division times and end times are not validated against birth times.
  `DividePreservesOrdered` states when order is kept.

## Model

| member | source | states |
|---|---|---|
| `Division.DivideSub` | lineage_lib.py:10-36 | The counter rises by exactly the number of live cells labelled with the mother id, and so does the number of live cells. The root keeps its label and birth time. The identifiers gain both daughters exactly when some leaf matched. With no match, the tree and counter come back unchanged. |
| `Division.DivideCell` | lineage_lib.py:38-42 | Dividing a lineage raises `n_cell` by the number of matching live cells and leaves it unchanged on no match. A counter equal to the number of live cells stays equal to it. The identifier set grows by the two daughters exactly when a leaf matched. |
| `Division.DivideAtPath` | lineage_lib.py:14-33 | At every position of the old tree: a leaf labelled with the mother id becomes a node with that label, the leaf's birth time, and daughters `d0`, `d1` born at `t_div`. Every other leaf is unchanged. Every node keeps its label and birth time. |
| `Division.DivideNewPaths` | lineage_lib.py:14-20 | Every position of the divided tree was a position of the old tree, or is a daughter of a leaf that carried the mother id. |
| `Division.DivideAddsNodes` | lineage_lib.py:17-20 | Each rewrite adds exactly one division event: the node count grows by the number of matching live cells. |
| `Division.DivideMembership` | lineage_lib.py:17 | Division never removes an identifier. After a successful division, the mother and both daughters are present. |
| `Division.DividePreservesSynced` | lineage_lib.py:20 | If both daughters of every division share a birth time, this stays true after division, since both new daughters are born at `t_div`. |
| `Division.DividePreservesOrdered` | lineage_lib.py:20 | If no daughter is born before her mother, this stays true, provided `t_div` is not before the birth of any matching leaf. The source does not check that condition. |
| `Division.ReplayKeepsCounterAndIds` | lineage_lib.py:38-42 | Starting from a counter equal to the number of live cells, any run of `divide_cell` calls keeps the two equal and loses no identifier. |
| `Division.FounderDivides` | lineage_lib.py:12-22 | Founder 0, born at 0 and divided into 1 and 2 at time 5, gives the expected tree with `n_cell` = 2. |
| `Division.DaughterDivides` | lineage_lib.py:23-33 | Dividing daughter 1 into 3 and 4 at time 8 rewrites only that leaf, inside the first branch, and brings `n_cell` to 3. |
| `Division.MotherLabelNotDivided` | lineage_lib.py:12-14 | An id that occurs only as a mother label is a member, but dividing it changes nothing: only leaves are matched. |
| `Membership.IsIn` | lineage_lib.py:157-171 | The search returns true exactly when the id is a leaf id or a mother label somewhere in the tree. |
| `Membership.IsCellIn` | lineage_lib.py:173-175 | Membership of the whole lineage is membership in its identifier set. |
| `Membership.IsInByPath` | lineage_lib.py:157-171 | The search finds an id exactly when some position of the tree carries it as its label. Both directions are proved. |
| `Membership.DivisionMembership` | lineage_lib.py:157-171 | Membership is monotone under division. After a successful division the mother and both daughters are members, and no other new id becomes one. |
| `Membership.ReplayMembership` | lineage_lib.py:157-175 | An id present before a run of divisions is still present after it, whatever the counter's value. |
| `Membership.TwoDivisionsMembership` | lineage_lib.py:157-171 | Founder 0 is divided into 1 and 2, and then 1 into 3 and 4, both through `DivideCell`. Afterwards 2 is found, 1 is found as a mother label, and 5 is not found. |
| `Layout.DrawSub` | lineage_lib.py:44-94 | The next free slot returned is the incoming one plus the number of live cells in the sublineage. |
| `Layout.DrawSubIsReference` | lineage_lib.py:44-94 | The threaded walk appends exactly the reference post-order segments to the incoming list. It returns the reference slot of the root branch and the next free slot. Its result does not depend on the incoming current-branch slot. |
| `Layout.DrawSubIgnoresXCurr` | lineage_lib.py:49 | The initial `x_curr_branch` argument has no effect on the layout. |
| `Layout.DrawData` | lineage_lib.py:96-98 | The diagram width is the number of live cells, which is `n_cell` for a consistent lineage. There are live cells + 2 × divisions segments, and they are the reference layout from slot 0. |
| `Layout.SlotRange` | lineage_lib.py:49-58 | A sublineage's root branch lies within its live cells' slot range, strictly inside it when the root has divided. |
| `Layout.MotherBetweenDaughters` | lineage_lib.py:86 | A mother's slot lies strictly between her first and second daughter's slots. |
| `Layout.SegmentsWellPlaced` | lineage_lib.py:81-86 | Every segment's slots lie within the sublineage's slot range, and every division bar has its left end strictly before its right end. |
| `Layout.LeafSlots` | lineage_lib.py:49-58 | The k-th live cell from the left, with child 0 before child 1, gets slot offset + k. It is drawn as a stem from its birth to `t_end` labelled with its id. |
| `Layout.LeafDrawn` | lineage_lib.py:49-55 | The live cell at any position is drawn as a stem from its birth to `t_end`. The stem sits at the slot equal to the number of live cells to its left. |
| `Layout.DivisionDrawn` | lineage_lib.py:71-91 | Every division is drawn twice, both labelled with the mother id. First, a bar joins the daughters' slots at the first daughter's birth time. Second, the mother's stem runs from her birth to that time, at their midpoint. |
| `Layout.DivisionClosesLayout` | lineage_lib.py:79-91 | A divided sublineage's segments end with its division bar followed by the mother's stem, so the output is in post-order. |
| `Layout.SegmentCounts` | lineage_lib.py:52-55 | There is exactly one division bar per division, and one vertical stem per cell that ever lived. |
| `Layout.FounderLayout` | lineage_lib.py:96-98 | Founder 0 divided into 1 and 2 at time 5, drawn to time 10, gives width 2. The output is the stems of 1 and 2 at slots 0 and 1, the bar at time 5, and the founder's stem from 0 to 5 at slot 0.5. |
| `Encoding.Unzip` | lineage_lib.py:17-20 | Splitting a tree always yields an id structure and an interval structure of the same shape. |
| `Encoding.Zip` | lineage_lib.py:5-8 | Joining succeeds exactly when the two structures have the same shape. |
| `Encoding.ZipUnzip` | lineage_lib.py:5-8 | Splitting a tree and joining the parts gives the tree back. |
| `Encoding.UnzipZip` | lineage_lib.py:5-8 | Joining two same-shaped structures and splitting the result gives both back. |
| `Encoding.FromStored` | lineage_lib.py:5-8 | `__init__` yields a lineage exactly for same-shaped structures. The lineage stores them unchanged, along with the given counter. |
| `Encoding.FounderIsConsistent` | lineage_lib.py:5-8 | A lineage started from a single founding cell with counter 1 is consistent. |

## Left out

- `draw_lineage` (lineage_lib.py:100-118) is left out. It turns the segment list into plotting calls and text labels, which is rendering rather than logic.
- The commented-out older `draw_lineage` (lineage_lib.py:120-155) is left out because it is dead code.
- two_compartment_model_sweep.py is not part of this model. It is a driver with floating-point statistics, random seeding, calls into a simulator that is not shown, printing, and file output.
- The branch of `is_in_lineage` that compares a non-list `lin_id[1]` with the id (lineage_lib.py:168-169) is left out. The model takes the daughters as two scalar ids in a list, which is the argument the comment at lineage_lib.py:40 documents. Under that argument a divided cell stores a two-element daughter list at `lin_id[1]` (lineage_lib.py:17), so the branch is not reached, and the tree datatype cannot represent anything else.
- The Python aliasing of the caller's daughter list is left out. The source stores that list itself inside the tree (lineage_lib.py:17). If two leaves matched in one call, both would share it. The model copies values.
- Arguments outside the documented interface are left out. Ids and the daughter pair come from the caller (lineage_lib.py:5, 38), and the model covers only scalar ids and a daughter list of two scalar ids (lineage_lib.py:40). Ids that are themselves lists, and daughter lists of other lengths, are not modelled.
- A daughter pair passed as a tuple, as in `divide_cell(0, (1, 2), 5.)`, is left out. The source stores the tuple at `lin_id[1]` (lineage_lib.py:17). `is_in_lineage` then takes the line-168 branch, compares the whole tuple with the id, and reports both daughters absent. A later division that reaches that node fails at the item assignment `lin_id[1][i]=...` (lineage_lib.py:32), because a tuple cannot be assigned to.
- The lineage is modelled as an immutable value, so in-place updates of lists the caller still holds are not covered. `__init__` keeps the caller's own `lin_id` and `lin_interval` lists (lineage_lib.py:6-7). Once the root has divided, a division writes into those lists (lineage_lib.py:32-33). Two `Lineage` objects built from the same lists therefore see each other's divisions, while each one's `n_cell` stays its own. In the model each lineage is unaffected by divisions of another.
- `Encoding.FromStored`: an id structure and an interval structure of different shapes are accepted by `__init__` but make later traversals fail or misread. The model returns `None` for them instead.
- Python's recursion limit is not modelled. Each of the three operations recurses once per tree level: division at lineage_lib.py:30, layout at lineage_lib.py:67, and membership at lineage_lib.py:166. Python limits the depth of nested calls, 1000 frames by default. So on a lineage deeper than roughly that many levels, `divide_cell`, `get_lineage_draw_data` and `is_cell_in_lineage` raise `RecursionError`. `Division.DivideSub`, `Layout.DrawSub` and `Membership.IsIn` return a result at any depth.
- Slots are exact `real` values. The source computes each midpoint in floating point with `/2.` (lineage_lib.py:86), which rounds. In a lineage whose first daughter keeps dividing to a depth beyond about 48, the root-branch slot n-1+2^-n needs more than 53 mantissa bits. The source then draws it at a rounded position, while `Layout.Slot` keeps the exact value. The model does not cover this rounding.
- Type inspection of list versus scalar is replaced by the tree datatype's two constructors.
- `Layout.DrawSub`: its contract states only the next free slot. The slot bounds and the emitted segments are stated on the reference layout, and `DrawSubIsReference` transfers them to the walk.

=== FILE: division.dfy ===
/** Division insertion: every leaf labelled with the dividing cell's id is
    rewritten into a node carrying that id, whose two daughters are born at
    the division time; the cell counter goes up by one per rewrite. */
module Division {
  import opened LineageTree

  /** The rewrite applied to one matching leaf born at `b`. */
  function Divided(mother: CellId, b: Time, d0: CellId, d1: CellId, tDiv: Time): Tree {
    Node(mother, b, Leaf(d0, tDiv), Leaf(d1, tDiv))
  }

  /** The recursive search-and-rewrite over a sublineage, threading the
      cell counter. No matching leaf means the sublineage and the counter
      come back unchanged. */
  function DivideSub(t: Tree, tDiv: Time, mother: CellId, d0: CellId, d1: CellId, nCell: int)
    : (r: (Tree, int))
    ensures r.1 == nCell + LeafMatches(t, mother)
    ensures LeafCount(r.0) == LeafCount(t) + LeafMatches(t, mother)
    ensures r.0.birth == t.birth && r.0.Label() == t.Label()
    ensures Ids(r.0) == Ids(t) + (if LeafMatches(t, mother) > 0 then {d0, d1} else {})
    ensures LeafMatches(t, mother) == 0 ==> r == (t, nCell)
  {
    match t
    case Leaf(i, b) =>
      if i == mother then (Divided(mother, b, d0, d1, tDiv), nCell + 1) else (t, nCell)
    case Node(m, b, c0, c1) =>
      var r0 := DivideSub(c0, tDiv, mother, d0, d1, nCell);
      var r1 := DivideSub(c1, tDiv, mother, d0, d1, r0.1);
      (Node(m, b, r0.0, r1.0), r1.1)
  }

  /** `divide_cell`: divide cell `mother` into daughters `d0` and `d1` at `tDiv`. */
  function DivideCell(l: Lineage, mother: CellId, d0: CellId, d1: CellId, tDiv: Time): (r: Lineage)
    ensures r.nCell == l.nCell + LeafMatches(l.root, mother)
    ensures LeafMatches(l.root, mother) == 0 ==> r == l
    ensures Consistent(l) ==> Consistent(r)
    ensures Ids(r.root) == Ids(l.root) + (if LeafMatches(l.root, mother) > 0 then {d0, d1} else {})
  {
    var r := DivideSub(l.root, tDiv, mother, d0, d1, l.nCell);
    Lineage(r.0, r.1)
  }

  /** The divided tree seen position by position: each node keeps its
      label and birth time, each non-matching leaf is unchanged, and each
      leaf labelled `mother` becomes a node with two daughters born at `tDiv`. */
  lemma {:induction false} DivideAtPath(t: Tree, tDiv: Time, mother: CellId, d0: CellId, d1: CellId,
                                        nCell: int, p: seq<bool>)
    requires ValidPath(t, p)
    ensures var r := DivideSub(t, tDiv, mother, d0, d1, nCell).0;
      && ValidPath(r, p)
      && (At(t, p).Leaf? && At(t, p).id == mother ==>
            At(r, p) == Divided(mother, At(t, p).birth, d0, d1, tDiv))
      && (At(t, p).Leaf? && At(t, p).id != mother ==> At(r, p) == At(t, p))
      && (At(t, p).Node? ==>
            At(r, p).Node? && At(r, p).mother == At(t, p).mother && At(r, p).birth == At(t, p).birth)
  {
    if p != [] {
      var n0 := DivideSub(t.left, tDiv, mother, d0, d1, nCell).1;
      if p[0] {
        DivideAtPath(t.right, tDiv, mother, d0, d1, n0, p[1..]);
      } else {
        DivideAtPath(t.left, tDiv, mother, d0, d1, nCell, p[1..]);
      }
    }
  }

  /** The divided tree has no other positions: a position of the result is
      either a position of the original tree or a daughter of a leaf that
      was labelled `mother`. */
  lemma {:induction false} DivideNewPaths(t: Tree, tDiv: Time, mother: CellId, d0: CellId, d1: CellId,
                                          nCell: int, p: seq<bool>)
    requires ValidPath(DivideSub(t, tDiv, mother, d0, d1, nCell).0, p)
    ensures || ValidPath(t, p)
            || (&& p != []
                && ValidPath(t, p[..|p| - 1])
                && At(t, p[..|p| - 1]).Leaf?
                && At(t, p[..|p| - 1]).id == mother)
  {
    if p != [] {
      match t
      case Leaf(i, b) =>
        assert p[..|p| - 1] == [];
      case Node(m, b, c0, c1) =>
        var n0 := DivideSub(c0, tDiv, mother, d0, d1, nCell).1;
        var c := if p[0] then c1 else c0;
        var n := if p[0] then n0 else nCell;
        DivideNewPaths(c, tDiv, mother, d0, d1, n, p[1..]);
        if !ValidPath(t, p) {
          var q := p[1..];
          assert q != [];
          assert p[..|p| - 1][1..] == q[..|q| - 1];
          assert p[..|p| - 1][0] == p[0];
        }
    }
  }

  /** Each rewrite adds exactly one division event to the tree. */
  lemma {:induction false} DivideAddsNodes(t: Tree, tDiv: Time, mother: CellId, d0: CellId, d1: CellId,
                                           nCell: int)
    ensures NodeCount(DivideSub(t, tDiv, mother, d0, d1, nCell).0) == NodeCount(t) + LeafMatches(t, mother)
  {
    match t
    case Leaf(_, _) =>
    case Node(m, b, c0, c1) =>
      var n0 := DivideSub(c0, tDiv, mother, d0, d1, nCell).1;
      DivideAddsNodes(c0, tDiv, mother, d0, d1, nCell);
      DivideAddsNodes(c1, tDiv, mother, d0, d1, n0);
  }

  /** Division only adds identifiers; after a successful division the mother
      and both daughters are members. */
  lemma DivideMembership(l: Lineage, mother: CellId, d0: CellId, d1: CellId, tDiv: Time)
    ensures Ids(l.root) <= Ids(DivideCell(l, mother, d0, d1, tDiv).root)
    ensures LeafMatches(l.root, mother) > 0 ==>
      {mother, d0, d1} <= Ids(DivideCell(l, mother, d0, d1, tDiv).root)
  {
    if LeafMatches(l.root, mother) > 0 {
      MatchIsMember(l.root, mother);
    }
  }

  /** A leaf labelled `c` makes `c` a member. */
  lemma {:induction false} MatchIsMember(t: Tree, c: CellId)
    requires LeafMatches(t, c) > 0
    ensures c in Ids(t)
  {
    match t
    case Leaf(_, _) =>
    case Node(_, _, l, r) =>
      if LeafMatches(l, c) > 0 {
        MatchIsMember(l, c);
      } else {
        MatchIsMember(r, c);
      }
  }

  /** Both daughters of every division share a birth time, and division keeps it so. */
  lemma {:induction false} DividePreservesSynced(t: Tree, tDiv: Time, mother: CellId, d0: CellId, d1: CellId,
                                                 nCell: int)
    requires Synced(t)
    ensures Synced(DivideSub(t, tDiv, mother, d0, d1, nCell).0)
  {
    match t
    case Leaf(_, _) =>
    case Node(m, b, c0, c1) =>
      var n0 := DivideSub(c0, tDiv, mother, d0, d1, nCell).1;
      DividePreservesSynced(c0, tDiv, mother, d0, d1, nCell);
      DividePreservesSynced(c1, tDiv, mother, d0, d1, n0);
  }

  /** Every leaf labelled `c` was born no later than `tDiv`. */
  predicate BornBy(t: Tree, c: CellId, tDiv: Time) {
    match t
    case Leaf(i, b) => i == c ==> b <= tDiv
    case Node(_, _, l, r) => BornBy(l, c, tDiv) && BornBy(r, c, tDiv)
  }

  /** No daughter is born before its mother, provided the division time is
      not earlier than the dividing leaf's birth (the source does not check this). */
  lemma {:induction false} DividePreservesOrdered(t: Tree, tDiv: Time, mother: CellId, d0: CellId, d1: CellId,
                                                  nCell: int)
    requires Ordered(t) && BornBy(t, mother, tDiv)
    ensures Ordered(DivideSub(t, tDiv, mother, d0, d1, nCell).0)
  {
    match t
    case Leaf(_, _) =>
    case Node(m, b, c0, c1) =>
      var n0 := DivideSub(c0, tDiv, mother, d0, d1, nCell).1;
      DividePreservesOrdered(c0, tDiv, mother, d0, d1, nCell);
      DividePreservesOrdered(c1, tDiv, mother, d0, d1, n0);
  }

  // ---------------------------------------------------------------------
  // A run of division events, applied one after another by the caller.

  datatype Event = Event(mother: CellId, d0: CellId, d1: CellId, tDiv: Time)

  function Replay(l: Lineage, events: seq<Event>): Lineage
    decreases |events|
  {
    if events == [] then l
    else
      var e := events[0];
      Replay(DivideCell(l, e.mother, e.d0, e.d1, e.tDiv), events[1..])
  }

  /** Starting consistent, the counter equals the number of live cells after
      any run of divisions; no identifier is ever lost. */
  lemma {:induction false} ReplayKeepsCounterAndIds(l: Lineage, events: seq<Event>)
    requires Consistent(l)
    ensures Consistent(Replay(l, events))
    ensures Ids(l.root) <= Ids(Replay(l, events).root)
    decreases |events|
  {
    if events != [] {
      var e := events[0];
      var l' := DivideCell(l, e.mother, e.d0, e.d1, e.tDiv);
      DivideMembership(l, e.mother, e.d0, e.d1, e.tDiv);
      ReplayKeepsCounterAndIds(l', events[1..]);
    }
  }

  /** A founder with id 0 born at 0 divides into 1 and 2 at time 5: the
      counter reaches 2, one per live cell. */
  lemma FounderDivides()
    ensures DivideCell(Lineage(Leaf(0, 0.0), 1), 0, 1, 2, 5.0)
         == Lineage(Node(0, 0.0, Leaf(1, 5.0), Leaf(2, 5.0)), 2)
  {
  }

  /** Continuing: dividing 1 into 3 and 4 at time 8 brings the counter to 3,
      and 1 remains a member as a mother label. */
  lemma DaughterDivides()
    ensures DivideCell(Lineage(Node(0, 0.0, Leaf(1, 5.0), Leaf(2, 5.0)), 2), 1, 3, 4, 8.0)
         == Lineage(Node(0, 0.0, Node(1, 5.0, Leaf(3, 8.0), Leaf(4, 8.0)), Leaf(2, 5.0)), 3)
  {
  }

  /** An id present only as a mother label is never divided again: dividing
      it leaves the lineage as it was. */
  lemma MotherLabelNotDivided()
    ensures var a := Lineage(Node(0, 0.0, Leaf(1, 5.0), Leaf(2, 5.0)), 2);
      && 0 in Ids(a.root)
      && DivideCell(a, 0, 7, 8, 9.0) == a
  {
  }
}

=== FILE: encoding.dfy ===
/** The stored form of a lineage: two nested structures of the same shape,
    one holding cell ids (`lin_id`) and one holding birth times
    (`lin_interval`). A live cell is a scalar in both; a division is
    `[mother, [child0, child1]]` and `[birth, [child0, child1]]`. */
module Encoding {
  import opened LineageTree

  datatype Option<T> = None | Some(value: T)

  datatype IdTree =
    | IdLeaf(id: CellId)
    | IdPair(mother: CellId, c0: IdTree, c1: IdTree)

  datatype IntervalTree =
    | BirthAt(t: Time)
    | Interval(birth: Time, c0: IntervalTree, c1: IntervalTree)

  /** The id structure and the interval structure branch at the same places. */
  predicate SameShape(a: IdTree, b: IntervalTree) {
    match (a, b)
    case (IdLeaf(_), BirthAt(_)) => true
    case (IdPair(_, a0, a1), Interval(_, b0, b1)) => SameShape(a0, b0) && SameShape(a1, b1)
    case _ => false
  }

  /** Splits a lineage tree into its id and interval structures. */
  function Unzip(t: Tree): (r: (IdTree, IntervalTree))
    ensures SameShape(r.0, r.1)
  {
    match t
    case Leaf(i, b) => (IdLeaf(i), BirthAt(b))
    case Node(m, b, l, r) =>
      var u0 := Unzip(l);
      var u1 := Unzip(r);
      (IdPair(m, u0.0, u1.0), Interval(b, u0.1, u1.1))
  }

  /** Joins an id structure and an interval structure; defined exactly when
      their shapes agree. */
  function Zip(a: IdTree, b: IntervalTree): (r: Option<Tree>)
    ensures r.Some? <==> SameShape(a, b)
  {
    match (a, b)
    case (IdLeaf(i), BirthAt(t)) => Some(Leaf(i, t))
    case (IdPair(m, a0, a1), Interval(t, b0, b1)) =>
      var z0 := Zip(a0, b0);
      var z1 := Zip(a1, b1);
      if z0.Some? && z1.Some? then Some(Node(m, t, z0.value, z1.value)) else None
    case _ => None
  }

  /** Splitting then joining gives the tree back. */
  lemma {:induction false} ZipUnzip(t: Tree)
    ensures Zip(Unzip(t).0, Unzip(t).1) == Some(t)
  {
    match t
    case Leaf(_, _) =>
    case Node(_, _, l, r) =>
      ZipUnzip(l);
      ZipUnzip(r);
  }

  /** Joining then splitting gives both structures back. */
  lemma {:induction false} UnzipZip(a: IdTree, b: IntervalTree)
    requires SameShape(a, b)
    ensures Unzip(Zip(a, b).value) == (a, b)
  {
    match (a, b)
    case (IdLeaf(_), BirthAt(_)) =>
    case (IdPair(_, a0, a1), Interval(_, b0, b1)) =>
      UnzipZip(a0, b0);
      UnzipZip(a1, b1);
  }

  /** `Lineage.__init__`: a lineage from its stored id structure, interval
      structure and cell counter. */
  function FromStored(linId: IdTree, linInterval: IntervalTree, nCell: int): (r: Option<Lineage>)
    ensures r.Some? <==> SameShape(linId, linInterval)
    ensures r.Some? ==> Unzip(r.value.root) == (linId, linInterval) && r.value.nCell == nCell
  {
    var z := Zip(linId, linInterval);
    if z.Some? then
      UnzipZip(linId, linInterval);
      Some(Lineage(z.value, nCell))
    else None
  }

  /** The usual start of a lineage: one founding cell and a counter of 1. */
  lemma FounderIsConsistent(id: CellId, birth: Time)
    ensures var l := FromStored(IdLeaf(id), BirthAt(birth), 1);
      l.Some? && l.value.root == Leaf(id, birth) && Consistent(l.value)
  {
  }
}

=== FILE: layout.dfy ===
/** Layout derivation: a post-order walk of the lineage that gives each live
    cell the next free horizontal slot and each mother the midpoint of its
    daughters' slots, emitting the line segments of a lineage diagram. */
module Layout {
  import opened LineageTree

  /** A drawable line: a vertical lifetime stem at slot `x` from `t0` to
      `t1`, or a horizontal division bar from slot `x0` to slot `x1` at time `t`.
      Both carry the cell id they belong to. */
  datatype Segment =
    | Vertical(x: real, t0: Time, t1: Time, cid: CellId)
    | Horizontal(x0: real, x1: real, t: Time, cid: CellId)

  /** `get_sublineage_draw_data`: lays out sublineage `t` whose first live
      cell gets slot `xEnd`, appending its segments to `lines`. Returns the
      slot of the sublineage's root branch, the next free slot, and the
      extended segment list. The incoming `xCurr` is overwritten before it is
      ever read. */
  function DrawSub(t: Tree, tEnd: Time, xCurr: real, xEnd: nat, lines: seq<Segment>)
    : (r: (real, nat, seq<Segment>))
    ensures r.1 == xEnd + LeafCount(t)
  {
    match t
    case Leaf(i, b) =>
      var x := xEnd as real;
      (x, xEnd + 1, lines + [Vertical(x, b, tEnd, i)])
    case Node(m, b, c0, c1) =>
      var r0 := DrawSub(c0, tEnd, xCurr, xEnd, lines);
      var r1 := DrawSub(c1, tEnd, r0.0, r0.1, r0.2);
      var t1 := c0.birth;
      var x := (r0.0 + r1.0) / 2.0;
      (x, r1.1, r1.2 + [Horizontal(r0.0, r1.0, t1, m), Vertical(x, b, t1, m)])
  }

  // ---------------------------------------------------------------------
  // A reference layout computed top-down: the first live cell of a
  // sublineage sits at offset `o`, and the second daughter's sublineage
  // starts after all live cells of the first.

  /** The slot of sublineage `t`'s root branch when its first live cell is at `o`. */
  function Slot(t: Tree, o: nat): real {
    match t
    case Leaf(_, _) => o as real
    case Node(_, _, l, r) => (Slot(l, o) + Slot(r, o + LeafCount(l))) / 2.0
  }

  /** The segments of sublineage `t` in post-order: both daughters'
      segments, then the division bar, then the mother's stem. */
  function Segments(t: Tree, tEnd: Time, o: nat): seq<Segment> {
    match t
    case Leaf(i, b) => [Vertical(o as real, b, tEnd, i)]
    case Node(m, b, l, r) =>
      Segments(l, tEnd, o) + Segments(r, tEnd, o + LeafCount(l))
        + [Horizontal(Slot(l, o), Slot(r, o + LeafCount(l)), l.birth, m),
           Vertical(Slot(t, o), b, l.birth, m)]
  }

  /** The threaded walk computes the reference layout; in particular its
      result does not depend on the incoming `xCurr`. */
  lemma {:induction false} DrawSubIsReference(t: Tree, tEnd: Time, xCurr: real, xEnd: nat, lines: seq<Segment>)
    ensures DrawSub(t, tEnd, xCurr, xEnd, lines)
         == (Slot(t, xEnd), xEnd + LeafCount(t), lines + Segments(t, tEnd, xEnd))
  {
    match t
    case Leaf(_, _) =>
    case Node(m, b, c0, c1) =>
      var o1 := xEnd + LeafCount(c0);
      var s0 := Segments(c0, tEnd, xEnd);
      var s1 := Segments(c1, tEnd, o1);
      var r0 := DrawSub(c0, tEnd, xCurr, xEnd, lines);
      assert r0 == (Slot(c0, xEnd), o1, lines + s0) by {
        DrawSubIsReference(c0, tEnd, xCurr, xEnd, lines);
      }
      var r1 := DrawSub(c1, tEnd, r0.0, r0.1, r0.2);
      assert r1 == (Slot(c1, o1), o1 + LeafCount(c1), lines + s0 + s1) by {
        DrawSubIsReference(c1, tEnd, r0.0, o1, lines + s0);
      }
      var tail := [Horizontal(Slot(c0, xEnd), Slot(c1, o1), c0.birth, m),
                   Vertical(Slot(t, xEnd), b, c0.birth, m)];
      assert DrawSub(t, tEnd, xCurr, xEnd, lines) == (Slot(t, xEnd), r1.1, r1.2 + tail);
      assert Segments(t, tEnd, xEnd) == s0 + s1 + tail;
      assert lines + s0 + s1 + tail == lines + (s0 + s1 + tail);
  }

  /** The starting slot passed in by the caller has no effect on the layout. */
  lemma {:induction false} DrawSubIgnoresXCurr(t: Tree, tEnd: Time, x: real, y: real, xEnd: nat, lines: seq<Segment>)
    ensures DrawSub(t, tEnd, x, xEnd, lines) == DrawSub(t, tEnd, y, xEnd, lines)
  {
    DrawSubIsReference(t, tEnd, x, xEnd, lines);
    DrawSubIsReference(t, tEnd, y, xEnd, lines);
  }

  /** `get_lineage_draw_data`: the diagram width and the segment list of the
      whole lineage, laid out from slot 0. */
  function DrawData(l: Lineage, tEnd: Time): (r: (nat, seq<Segment>))
    ensures r.0 == LeafCount(l.root)
    ensures |r.1| == LeafCount(l.root) + 2 * NodeCount(l.root)
    ensures r.1 == Segments(l.root, tEnd, 0)
    ensures Consistent(l) ==> r.0 == l.nCell
  {
    DrawSubIsReference(l.root, tEnd, 0.0, 0, []);
    SegmentCounts(l.root, tEnd, 0);
    var r := DrawSub(l.root, tEnd, 0.0, 0, []);
    (r.1, r.2)
  }

  // ---------------------------------------------------------------------
  // Properties of the reference layout.

  /** A segment's slots lie within `[lo, hi]`, and a division bar runs from
      left to right. */
  predicate WellPlaced(s: Segment, lo: real, hi: real) {
    match s
    case Vertical(x, _, _, _) => lo <= x <= hi
    case Horizontal(x0, x1, _, _) => lo <= x0 < x1 <= hi
  }

  /** Every segment of a sublineage stays within its live cells' slot range,
      and every division bar has its left end strictly before its right end. */
  lemma {:induction false} SegmentsWellPlaced(t: Tree, tEnd: Time, o: nat)
    ensures forall s :: s in Segments(t, tEnd, o) ==>
      WellPlaced(s, o as real, (o + LeafCount(t) - 1) as real)
  {
    match t
    case Leaf(_, _) =>
    case Node(m, b, l, r) =>
      SegmentsWellPlaced(l, tEnd, o);
      SegmentsWellPlaced(r, tEnd, o + LeafCount(l));
      SlotRange(l, o);
      SlotRange(r, o + LeafCount(l));
  }

  /** A sublineage's root branch lies within the slots of its live cells,
      strictly inside them when the root has divided. */
  lemma {:induction false} SlotRange(t: Tree, o: nat)
    ensures o as real <= Slot(t, o) <= (o + LeafCount(t) - 1) as real
    ensures t.Node? ==> o as real < Slot(t, o) < (o + LeafCount(t) - 1) as real
  {
    match t
    case Leaf(_, _) =>
    case Node(_, _, l, r) =>
      SlotRange(l, o);
      SlotRange(r, o + LeafCount(l));
  }

  /** A mother's slot lies strictly between its daughters' slots. */
  lemma MotherBetweenDaughters(t: Tree, o: nat)
    requires t.Node?
    ensures Slot(t.left, o) < Slot(t, o) < Slot(t.right, o + LeafCount(t.left))
  {
    SlotRange(t.left, o);
    SlotRange(t.right, o + LeafCount(t.left));
  }

  /** The live cells, taken left to right, get slots `o`, `o + 1`, ... and each
      is drawn as a stem from its birth to `tEnd`, labelled with its id. */
  lemma {:induction false} LeafSlots(t: Tree, tEnd: Time, o: nat)
    ensures forall k :: 0 <= k < LeafCount(t) ==>
      Vertical((o + k) as real, Leaves(t)[k].birth, tEnd, Leaves(t)[k].id) in Segments(t, tEnd, o)
  {
    match t
    case Leaf(_, _) =>
    case Node(m, b, l, r) =>
      LeafSlots(l, tEnd, o);
      LeafSlots(r, tEnd, o + LeafCount(l));
      var L := LeafCount(l);
      forall k | 0 <= k < LeafCount(t)
        ensures Vertical((o + k) as real, Leaves(t)[k].birth, tEnd, Leaves(t)[k].id) in Segments(t, tEnd, o)
      {
        if k < L {
          assert Leaves(t)[k] == Leaves(l)[k];
        } else {
          assert Leaves(t)[k] == Leaves(r)[k - L];
          assert o + k == (o + L) + (k - L);
        }
      }
  }

  /** Number of live cells to the left of the position at path `p`. */
  function LeftOf(t: Tree, p: seq<bool>): nat
    requires ValidPath(t, p)
  {
    if p == [] then 0
    else if p[0] then LeafCount(t.left) + LeftOf(t.right, p[1..])
    else LeftOf(t.left, p[1..])
  }

  /** A segment of any position's sublineage, laid out from that position's
      first live cell's slot, is a segment of the whole layout. */
  lemma {:induction false} SubLayoutIncluded(t: Tree, tEnd: Time, o: nat, p: seq<bool>, s: Segment)
    requires ValidPath(t, p)
    requires s in Segments(At(t, p), tEnd, o + LeftOf(t, p))
    ensures s in Segments(t, tEnd, o)
  {
    if p != [] {
      var sl := Segments(t.left, tEnd, o);
      var sr := Segments(t.right, tEnd, o + LeafCount(t.left));
      var whole := Segments(t, tEnd, o);
      assert whole == sl + sr + whole[|sl| + |sr|..];
      if p[0] {
        assert o + LeftOf(t, p) == (o + LeafCount(t.left)) + LeftOf(t.right, p[1..]);
        SubLayoutIncluded(t.right, tEnd, o + LeafCount(t.left), p[1..], s);
      } else {
        SubLayoutIncluded(t.left, tEnd, o, p[1..], s);
      }
    }
  }

  /** Every live cell is drawn as a stem from its birth to `tEnd` at its own
      slot, labelled with its id. */
  lemma {:induction false} LeafDrawn(t: Tree, tEnd: Time, o: nat, p: seq<bool>)
    requires ValidPath(t, p) && At(t, p).Leaf?
    ensures Vertical((o + LeftOf(t, p)) as real, At(t, p).birth, tEnd, At(t, p).id) in Segments(t, tEnd, o)
  {
    var n := At(t, p);
    var stem := Vertical((o + LeftOf(t, p)) as real, n.birth, tEnd, n.id);
    assert Segments(n, tEnd, o + LeftOf(t, p)) == [stem];
    SubLayoutIncluded(t, tEnd, o, p, stem);
  }

  /** Every division in the lineage is drawn: a bar at the division time
      (the first daughter's birth) joining the daughters' slots, and the
      mother's stem from her birth to the division at their midpoint, both
      labelled with the mother's id. */
  lemma {:induction false} DivisionDrawn(t: Tree, tEnd: Time, o: nat, p: seq<bool>)
    requires ValidPath(t, p) && At(t, p).Node?
    ensures var n := At(t, p);
            var x := o + LeftOf(t, p);
      && Horizontal(Slot(n.left, x), Slot(n.right, x + LeafCount(n.left)), n.DivisionTime(), n.mother)
         in Segments(t, tEnd, o)
      && Vertical((Slot(n.left, x) + Slot(n.right, x + LeafCount(n.left))) / 2.0,
                  n.birth, n.DivisionTime(), n.mother)
         in Segments(t, tEnd, o)
  {
    var n := At(t, p);
    var x := o + LeftOf(t, p);
    DivisionClosesLayout(n, tEnd, x);
    SubLayoutIncluded(t, tEnd, o, p, Horizontal(Slot(n.left, x), Slot(n.right, x + LeafCount(n.left)), n.left.birth, n.mother));
    SubLayoutIncluded(t, tEnd, o, p, Vertical(Slot(n, x), n.birth, n.left.birth, n.mother));
  }

  /** A sublineage rooted at a division ends with its bar and its mother's stem. */
  lemma DivisionClosesLayout(n: Tree, tEnd: Time, x: nat)
    requires n.Node?
    ensures var sub := Segments(n, tEnd, x);
      && |sub| >= 2
      && sub[|sub| - 2] == Horizontal(Slot(n.left, x), Slot(n.right, x + LeafCount(n.left)), n.left.birth, n.mother)
      && sub[|sub| - 1] == Vertical(Slot(n, x), n.birth, n.left.birth, n.mother)
  {
  }

  /** Number of division bars in a segment list. */
  function Bars(s: seq<Segment>): nat {
    if s == [] then 0 else (if s[0].Horizontal? then 1 else 0) + Bars(s[1..])
  }

  lemma {:induction false} BarsAppend(a: seq<Segment>, b: seq<Segment>)
    ensures Bars(a + b) == Bars(a) + Bars(b)
  {
    if a != [] {
      BarsAppend(a[1..], b);
      assert (a + b)[0] == a[0];
      assert (a + b)[1..] == a[1..] + b;
      assert Bars(a + b) == (if a[0].Horizontal? then 1 else 0) + Bars(a[1..] + b);
    } else {
      assert a + b == b;
    }
  }

  /** One bar per division, and one stem per cell that ever lived. */
  lemma {:induction false} SegmentCounts(t: Tree, tEnd: Time, o: nat)
    ensures Bars(Segments(t, tEnd, o)) == NodeCount(t)
    ensures |Segments(t, tEnd, o)| - Bars(Segments(t, tEnd, o)) == LeafCount(t) + NodeCount(t)
  {
    match t
    case Leaf(_, _) =>
    case Node(m, b, l, r) =>
      SegmentCounts(l, tEnd, o);
      SegmentCounts(r, tEnd, o + LeafCount(l));
      var sl := Segments(l, tEnd, o);
      var sr := Segments(r, tEnd, o + LeafCount(l));
      var tail := [Horizontal(Slot(l, o), Slot(r, o + LeafCount(l)), l.birth, m),
                   Vertical(Slot(t, o), b, l.birth, m)];
      BarsAppend(sl, sr);
      BarsAppend(sl + sr, tail);
      assert Bars(tail[1..]) == 0 by {
        assert tail[1..][1..] == [];
      }
  }

  /** The founder 0 born at 0, divided into 1 and 2 at time 5, drawn up to
      time 10: width 2, the two daughters' stems at slots 0 and 1, the bar
      between them at time 5 and the founder's stem at slot 0.5. */
  lemma FounderLayout()
    ensures DrawData(Lineage(Node(0, 0.0, Leaf(1, 5.0), Leaf(2, 5.0)), 2), 10.0)
         == (2, [Vertical(0.0, 5.0, 10.0, 1), Vertical(1.0, 5.0, 10.0, 2),
                 Horizontal(0.0, 1.0, 5.0, 0), Vertical(0.5, 0.0, 5.0, 0)])
  {
    var t := Node(0, 0.0, Leaf(1, 5.0), Leaf(2, 5.0));
    assert LeafCount(Leaf(1, 5.0)) == 1;
    assert Slot(Leaf(1, 5.0), 0) == 0.0;
    assert Slot(Leaf(2, 5.0), 1) == 1.0;
    assert Slot(t, 0) == 0.5;
    assert Segments(t, 10.0, 0)
        == [Vertical(0.0, 5.0, 10.0, 1)] + [Vertical(1.0, 5.0, 10.0, 2)]
           + [Horizontal(0.0, 1.0, 5.0, 0), Vertical(0.5, 0.0, 5.0, 0)];
    var r := DrawData(Lineage(t, 2), 10.0);
    assert r.0 == 2 && r.1 == Segments(t, 10.0, 0);
    assert [Vertical(0.0, 5.0, 10.0, 1)] + [Vertical(1.0, 5.0, 10.0, 2)]
           + [Horizontal(0.0, 1.0, 5.0, 0), Vertical(0.5, 0.0, 5.0, 0)]
        == [Vertical(0.0, 5.0, 10.0, 1), Vertical(1.0, 5.0, 10.0, 2),
            Horizontal(0.0, 1.0, 5.0, 0), Vertical(0.5, 0.0, 5.0, 0)];
  }
}

=== FILE: lineage_tree.dfy ===
/** The lineage tree of one founding cell: a binary cell-division history.
    A leaf is a cell that has not divided; a node is a mother cell that
    divided into two daughters. The division time of a node is not stored:
    it is the birth time of its first daughter, as in the Python encoding. */
module LineageTree {

  /** Cell identifiers are opaque, externally assigned values. */
  type CellId = int

  /** Simulation clock values: birth and division times. */
  type Time = real

  datatype Tree =
    | Leaf(id: CellId, birth: Time)
    | Node(mother: CellId, birth: Time, left: Tree, right: Tree)
  {
    /** The identifier shown at this position: a leaf's id or a mother label. */
    function Label(): CellId {
      if Leaf? then id else mother
    }

    /** For a node, the time at which the mother divided. */
    function DivisionTime(): Time
      requires Node?
    {
      left.birth
    }
  }

  /** A lineage together with its cell counter `n_cell`. */
  datatype Lineage = Lineage(root: Tree, nCell: int)

  /** Number of live (undivided) cells. */
  function LeafCount(t: Tree): (n: nat)
    ensures n >= 1
  {
    match t
    case Leaf(_, _) => 1
    case Node(_, _, l, r) => LeafCount(l) + LeafCount(r)
  }

  /** Number of division events recorded in the tree. */
  function NodeCount(t: Tree): nat {
    match t
    case Leaf(_, _) => 0
    case Node(_, _, l, r) => 1 + NodeCount(l) + NodeCount(r)
  }

  /** Every identifier the tree mentions, as a leaf id or as a mother label. */
  function Ids(t: Tree): set<CellId> {
    match t
    case Leaf(i, _) => {i}
    case Node(m, _, l, r) => {m} + Ids(l) + Ids(r)
  }

  /** Number of leaves whose id is `c` (mother labels are not counted). */
  function LeafMatches(t: Tree, c: CellId): nat {
    match t
    case Leaf(i, _) => if i == c then 1 else 0
    case Node(_, _, l, r) => LeafMatches(l, c) + LeafMatches(r, c)
  }

  /** The leaves in left-to-right order (child 0 before child 1). */
  function Leaves(t: Tree): (s: seq<Tree>)
    ensures |s| == LeafCount(t)
    ensures forall k :: 0 <= k < |s| ==> s[k].Leaf?
  {
    match t
    case Leaf(_, _) => [t]
    case Node(_, _, l, r) => Leaves(l) + Leaves(r)
  }

  /** The lineage is consistent when its counter equals the number of live cells. */
  predicate Consistent(l: Lineage) {
    l.nCell == LeafCount(l.root)
  }

  /** Both daughters of every division are born at the same instant. */
  predicate Synced(t: Tree) {
    match t
    case Leaf(_, _) => true
    case Node(_, _, l, r) => l.birth == r.birth && Synced(l) && Synced(r)
  }

  /** No cell is born before its mother. */
  predicate Ordered(t: Tree) {
    match t
    case Leaf(_, _) => true
    case Node(_, b, l, r) => b <= l.birth && b <= r.birth && Ordered(l) && Ordered(r)
  }

  // ---------------------------------------------------------------------
  // Positions in the tree, addressed by the path from the root:
  // `false` selects child 0, `true` selects child 1.

  predicate ValidPath(t: Tree, p: seq<bool>) {
    if p == [] then true
    else t.Node? && ValidPath(if p[0] then t.right else t.left, p[1..])
  }

  /** The subtree found at path `p`. */
  function At(t: Tree, p: seq<bool>): Tree
    requires ValidPath(t, p)
  {
    if p == [] then t
    else At(if p[0] then t.right else t.left, p[1..])
  }

  /** Every label reachable by some path is in `Ids`, and every member of
      `Ids` is the label at some path. */
  lemma {:induction false} IdsArePathLabels(t: Tree, c: CellId)
    ensures c in Ids(t) <==> exists p :: ValidPath(t, p) && At(t, p).Label() == c
  {
    if c in Ids(t) {
      var p := LabelPath(t, c);
    }
    if exists p :: ValidPath(t, p) && At(t, p).Label() == c {
      var p :| ValidPath(t, p) && At(t, p).Label() == c;
      PathLabelInIds(t, p);
    }
  }

  /** A path at which `c` is the label, for any `c` in `Ids(t)`. */
  lemma {:induction false} LabelPath(t: Tree, c: CellId) returns (p: seq<bool>)
    requires c in Ids(t)
    ensures ValidPath(t, p) && At(t, p).Label() == c
  {
    match t
    case Leaf(_, _) =>
      p := [];
    case Node(m, _, l, r) =>
      if c == m {
        p := [];
      } else if c in Ids(l) {
        var q := LabelPath(l, c);
        p := [false] + q;
        assert p[1..] == q;
      } else {
        var q := LabelPath(r, c);
        p := [true] + q;
        assert p[1..] == q;
      }
  }

  lemma {:induction false} PathLabelInIds(t: Tree, p: seq<bool>)
    requires ValidPath(t, p)
    ensures At(t, p).Label() in Ids(t)
  {
    if p != [] {
      PathLabelInIds(if p[0] then t.right else t.left, p[1..]);
    }
  }
}

=== FILE: membership.dfy ===
/** Membership query: does an identifier occur in the lineage, either as a
    live cell or as the label of a mother that has divided? */
module Membership {
  import opened LineageTree
  import opened Division

  /** `is_in_lineage`: a depth-first search that stops at the first match,
      checking a node's mother label before its two daughter sublineages. */
  function IsIn(t: Tree, c: CellId): (r: bool)
    ensures r <==> c in Ids(t)
  {
    match t
    case Leaf(i, _) => i == c
    case Node(m, _, l, r) =>
      if m == c then true
      else if IsIn(l, c) then true
      else IsIn(r, c)
  }

  /** `is_cell_in_lineage`: membership in the whole lineage. */
  function IsCellIn(l: Lineage, c: CellId): (r: bool)
    ensures r <==> c in Ids(l.root)
  {
    IsIn(l.root, c)
  }

  /** An identifier is found exactly when it is the label at some position
      of the tree. */
  lemma IsInByPath(t: Tree, c: CellId)
    ensures IsIn(t, c) <==> exists p :: ValidPath(t, p) && At(t, p).Label() == c
  {
    IdsArePathLabels(t, c);
  }

  /** Membership is monotone under division, and a successful division makes
      the mother and both daughters members; nothing else becomes a member. */
  lemma DivisionMembership(l: Lineage, mother: CellId, d0: CellId, d1: CellId, tDiv: Time, c: CellId)
    ensures IsCellIn(l, c) ==> IsCellIn(DivideCell(l, mother, d0, d1, tDiv), c)
    ensures LeafMatches(l.root, mother) > 0 ==>
      && IsCellIn(DivideCell(l, mother, d0, d1, tDiv), mother)
      && IsCellIn(DivideCell(l, mother, d0, d1, tDiv), d0)
      && IsCellIn(DivideCell(l, mother, d0, d1, tDiv), d1)
    ensures IsCellIn(DivideCell(l, mother, d0, d1, tDiv), c) ==>
      IsCellIn(l, c) || (LeafMatches(l.root, mother) > 0 && (c == d0 || c == d1))
  {
    DivideMembership(l, mother, d0, d1, tDiv);
  }

  /** Every identifier present before a run of divisions is still present
      after it, whatever the value of the cell counter. */
  lemma {:induction false} ReplayMembership(l: Lineage, events: seq<Event>, c: CellId)
    ensures IsCellIn(l, c) ==> IsCellIn(Replay(l, events), c)
    decreases |events|
  {
    if events != [] {
      var e := events[0];
      DivideMembership(l, e.mother, e.d0, e.d1, e.tDiv);
      ReplayMembership(DivideCell(l, e.mother, e.d0, e.d1, e.tDiv), events[1..], c);
    }
  }

  /** After 0 divides into 1 and 2, and 1 into 3 and 4: 2 is a live member,
      1 is still a member as a mother label, and 5 was never introduced. */
  lemma TwoDivisionsMembership()
    ensures var l := DivideCell(DivideCell(Lineage(Leaf(0, 0.0), 1), 0, 1, 2, 5.0), 1, 3, 4, 8.0);
      IsCellIn(l, 2) && IsCellIn(l, 1) && !IsCellIn(l, 5)
  {
    var a := DivideCell(Lineage(Leaf(0, 0.0), 1), 0, 1, 2, 5.0);
    assert a == Lineage(Node(0, 0.0, Leaf(1, 5.0), Leaf(2, 5.0)), 2) by {
      FounderDivides();
    }
    var b := DivideCell(a, 1, 3, 4, 8.0);
    assert b.root == Node(0, 0.0, Node(1, 5.0, Leaf(3, 8.0), Leaf(4, 8.0)), Leaf(2, 5.0)) by {
      DaughterDivides();
    }
    assert Ids(b.root) == {0, 1, 3, 4, 2};
  }
}
